=== FILE: README.md ===
# notegpt-proxy `/api/chat` — a Dafny model

The service is a small Flask proxy. `GET /api/chat` takes a message and a model name from the query
string and sends one request to the NoteGPT chat endpoint. It reads the event-stream body that comes
back, collects the `text` and `reasoning` fields of its `data:` lines into two buffers, and returns a
single JSON document. This project models that handler, `chat()` in `app.py`. It has three parts:

* **Parameter resolution** (`query.dfy`, module `Query`). The query string is a list of
  (key, value) pairs, and `request.args.get` returns the first value for a key. The model is the
  `modelo` value, or `gpt-4.1-mini` only when the key is absent. The message is the first
  *non-empty* value among `mensaje`, `prompt` and `texto`.
* **Stream decoding** (`text.dfy`, `stream.dfy`, modules `Text` and `Stream`).
  * Python's `strip`, `startswith`, `replace(old, '')` and `split('\n')` are written out exactly.
    The whitespace set of `strip` is that of `str.isspace`.
  * One line of the loop becomes an `Event`: skipped, or the value `json.loads` returned.
    `json.loads` stays abstract as a `parse` parameter.
  * `Step` then replays the `try` block on the event, including its exceptions. Appending a truthy
    non-string field raises. Calling `.get` on a non-object raises. A `reasoning` failure keeps the
    `text` that was already appended.
  * The decoder is the fold of `Step` over the lines.
* **Outcome classification** (`chat.dfy`, module `Chat`). The upstream call is a parameter
  `exchange: ChatRequest -> Upstream`. It is consulted only once a message is resolved. The
  outcomes are: an exception from the call, a status that is not 200, a body that does not decode,
  a blank body, a body with no answer text, or success.

Three facts of the code as written are easy to miss, and the model follows the code:

* The `data:` marker is removed from the whole line, not just its start: `str.replace` removes
  every occurrence. So an answer that mentions `metadata:` reaches the parser with `data:` cut out
  (`Stream.MarkerInsideTextIsCut`). One pass of removal can also re-form the marker
  (`Stream.MarkerCanReform`).
* A blank body gets the 500 "empty response" error only when the upstream status is 200. The status
  check comes first, so a blank body with status 404 gets 404
  (`Chat.UpstreamStatusPassedThrough` has no condition on the body).
* A message parameter that is present but empty counts as missing.

`decimal.dfy` (module `Decimal`) models `str(int)` for the `Error {status}` message.
`scenarios.dfy` (module `Scenarios`) works through two example bodies line by line.
`wrappers.dfy` holds `Option` and `Result`.

## Model

| member | source | states |
|---|---|---|
| `Query.Lookup` | app.py:20-21 | `request.args.get(key)` is absent exactly when no pair has the key; otherwise it is the value of the first pair with that key |
| `Query.ResolveModel` | app.py:20 | the model is `gpt-4.1-mini` when `modelo` is absent; when `modelo` is present the model is its first value, even an empty one |
| `Query.FirstGiven` | app.py:21 | `a or b or c` over the aliases: nothing when no alias has a non-empty value, otherwise the value of the first alias that has one |
| `Query.ResolveMessage` | app.py:21-24 | the message is `mensaje` if non-empty, else `prompt` if non-empty, else `texto` if non-empty; it is missing exactly when all three are absent or empty; a resolved message is never empty |
| `Chat.Request` | app.py:46-52 | the upstream request carries the resolved (non-empty) message, the resolved model, tone `default`, length `moderate` and the given conversation id |
| `Chat.Handle` | app.py:18-144 | the reply is the 400 missing-message error exactly when no message resolves; status 200 goes with `success: true` and nothing else does; on success `pregunta` and `modelo` echo the resolved inputs and `respuesta` is non-empty |
| `Chat.Complete` | app.py:54-144 | a raised call gives 500 with the exception text; a non-200 status is passed through with `Error <status>`; an undecodable body gives 500; a blank 200 body gives 500 "Empty response"; a decodable 200 body succeeds exactly when the stripped raw answer (the concatenated `text` fields) is non-empty, and otherwise, when not blank, gives 500 "No text content"; on success `razonamiento` is present exactly when the stripped reasoning is non-empty, and then equals it |
| `Chat.RejectionSendsNothing` | app.py:21-33 | without a message the reply is the 400 error and `success` is false; the reply is the same whatever the upstream and the parser would do |
| `Chat.UpstreamStatusPassedThrough` | app.py:57-66 | a non-200 upstream status becomes the reply's status and `success` is false, whatever the body |
| `Chat.BlankBodyIsAnError` | app.py:71-80 | an empty or all-whitespace 200 body gives 500 "Empty response", and the reply does not depend on the parser |
| `Chat.SuccessExactlyWithAnswer` | app.py:106-126 | for a decodable 200 body, success holds exactly when the stripped raw answer is non-empty; the success body is that answer, the resolved model and message, and the stripped reasoning when non-empty |
| `Chat.StatusError` | app.py:59 | `f'Error {status}'` is `Error ` followed by the status in decimal, and the status reads back from it |
| `Chat.StatusErrorIsNotMissingMessage` | app.py:23-60 | no upstream-status error text `Error <status>` equals the missing-message text, so a 400 passed through from upstream is never mistaken for the missing-parameter reply |
| `Decimal.FromNat` | app.py:59 | the digits of a natural number: non-empty, all decimal digits, no leading zero except for `0`, and they denote the number |
| `Decimal.FromInt` | app.py:59 | `str(n)`: starts with a minus sign exactly for negative `n`, and the digits after it denote the absolute value with no leading zero except in `0` itself |
| `Decimal.FromIntRoundTrip` | app.py:59 | reading back `str(n)` gives `n`, so different statuses give different messages |
| `Text.Strip` | app.py:90 | `strip()` returns an infix of the input with only whitespace cut from either side; the result does not start or end with whitespace; it is empty exactly when the input is all whitespace |
| `Text.RemoveAll` | app.py:90 | `replace(p, '')` never lengthens the string and keeps a first character that does not begin an occurrence |
| `Text.RemoveAllAbsent` | app.py:90 | a string with no occurrence of `p` is returned unchanged |
| `Text.RemoveAllFirst` | app.py:90 | when the leftmost occurrence of `p` in `a + p + b` is the one after `a`, the result is `a` followed by the removal applied to `b` |
| `Text.Split` | app.py:87 | `split(sep)`: k separators give k + 1 pieces, no piece holds the separator, and joining the pieces with the separator gives back the input |
| `Text.SplitAppend` | app.py:87 | the pieces of `a + sep + b` are the pieces of `a` followed by the pieces of `b` |
| `Text.SplitJoin` | app.py:87 | splitting joined separator-free pieces gives the same pieces back |
| `Stream.PayloadOf` | app.py:90 | the string handed to `json.loads` has no whitespace at either end and is no longer than the line |
| `Stream.AppendField` | app.py:97-101 | `if data.get(k): acc += data[k]` raises exactly for a truthy non-string field; a string field is appended to the buffer as it is, and an absent or falsy field leaves the buffer unchanged |
| `Stream.Interpret` | app.py:87-94 | a line without the `data:` prefix is skipped; a line yields a parsed event exactly when it has the prefix, its payload is non-empty and the parser accepts the payload, and the event then carries the parsed value |
| `Stream.Step` | app.py:95-104 | one iteration appends the line's string `text` to the answer and its string `reasoning` (when `text` did not raise) to the reasoning, whichever statement raised |
| `Stream.FoldAppends` | app.py:83-104 | the loop appends the in-order concatenation of every line's contributions to the buffers it starts from |
| `Stream.Decode` | app.py:83-104 | the loop over the body's lines leaves in the answer buffer the in-order concatenation of the lines' string `text` fields, and in the reasoning buffer that of the string `reasoning` fields that reach it |
| `Stream.DecodeSplits` | app.py:83-104 | decoding `a + "\n" + b` gives the buffers of `a` followed by those of `b` |
| `Stream.SilentFirstLine` | app.py:87-104 | a first line that contributes nothing can be dropped without changing the result |
| `Stream.SilentLastLine` | app.py:87-104 | a last line that contributes nothing can be dropped without changing the result |
| `Stream.SilentLineIsTransparent` | app.py:87-104 | inserting a line that contributes nothing between two lines leaves both buffers unchanged |
| `Stream.NonDataLineIgnored` | app.py:87-88 | a line not starting with `data:` decodes to nothing, and inserting it at the front, between two lines or at the end leaves both buffers unchanged |
| `Stream.FailedLineIgnored` | app.py:89-104 | a `data:` line whose payload is empty, fails to parse, or is not an object decodes to nothing, and inserting it at the front, between two lines or at the end leaves both buffers unchanged |
| `Stream.TextKeptWhenReasoningRaises` | app.py:97-104 | when `text` is a string and `reasoning` makes the append raise, the text is kept and the reasoning buffer is unchanged |
| `Stream.WhitespaceBodyDecodesToNothing` | app.py:71-106 | an empty or all-whitespace body decodes to empty buffers, so the blank-body check changes only the error message |
| `Stream.MarkerInsideTextIsCut` | app.py:90 | the line `data:{"text":"metadata:1"}` (the marker, `{"text":"meta`, the marker, `1"}`) hands `{"text":"meta1"}` to the parser: the marker inside the text is cut too |
| `Stream.MarkerCanReform` | app.py:90 | the line `data:dadata:ta:x` hands `data:x` to the parser, which still contains the marker |
| `Scenarios.DataLine` | app.py:88-101 | a line `data: ` + trimmed payload, with no marker after the prefix, decodes to one loop step on the parse of that payload |
| `Scenarios.TextOnlyLine` | app.py:88-101 | a line `data: ` + a trimmed one-line payload, with no marker after the prefix, that parses to an object with only a string `text` decodes to that text as the answer and an empty reasoning |
| `Scenarios.TwoLinesJoin` | app.py:83-101 | `data: {"text":"Hello"}` then `data: {"text":" world","reasoning":"r1"}` decode to the answer `Hello world` and the reasoning `r1` |
| `Scenarios.MalformedLineSkipped` | app.py:87-104 | `data: {bad json` then `data: {"text":"ok"}` decode to the answer `ok` and an empty reasoning |

## Left out

- CORS headers (`after_request`, app.py:10-15): web-framework plumbing.
- The `/api/modelos` and `/` endpoints (app.py:146-197): constant documents with nothing to compute.
- The URL, headers, cookie and 60-second timeout of the upstream call (app.py:36-44, 55). The call is the `exchange` parameter; a timeout or network failure is its `Raised` outcome.
- `uuid.uuid4()` (app.py:51): randomness; the conversation id is a parameter of `Chat.Handle`.
- Reading and UTF-8 decoding of the response bytes (app.py:69): the `content` of `Upstream.Answered` is the decoded text or the error's message.
- `json.loads` (app.py:94): the `parse` parameter. A parsed value is seen only through its two fields and whether it is an object.
- `json.dumps` formatting, `ensure_ascii=False`, indentation and the MIME type: output encoding; the reply is a status and a `Body` value.
- Exceptions outside `Exception` (such as `KeyboardInterrupt`), and status codes that Flask itself would refuse: outside the handler's logic.
- Stream.PayloadOf: does not state that the parser's input is free of `data:`. That property is false of the code, because one pass of `replace` can re-form the marker (`Stream.MarkerCanReform`).
- Repeated decoding of one body gives identical buffers. This holds by construction, since every member is a pure function, so it has no lemma of its own.

=== FILE: chat.dfy ===
/** The `/api/chat` handler: resolve the parameters, reject a request without
    a message, send one request upstream, and map the upstream's outcome and
    the decoded stream to the reply's status code and JSON body. */
module Chat {
  import opened Wrappers
  import opened Text
  import Decimal
  import opened Query
  import opened Stream

  /** The JSON payload sent upstream. The URL, headers and cookie are fixed
      and left out; the conversation id is the caller-supplied `uuid4`. */
  datatype ChatRequest = ChatRequest(
    message: string, model: string, tone: string, length: string, conversationId: string)

  /** What the upstream call yields: a response with its status code and its
      body read and decoded as UTF-8 (or the message of the error raised while
      doing so), or the message of an exception raised by `requests.post`
      (network failure, timeout). */
  datatype Upstream =
    | Answered(status: int, content: Result<string, string>)
    | Raised(error: string)

  /** The JSON document returned: `{success: false, error}` or
      `{success: true, respuesta, modelo, pregunta, razonamiento?}`. */
  datatype Body =
    | Error(error: string)
    | Answer(respuesta: string, modelo: string, pregunta: string, razonamiento: Option<string>)

  datatype Reply = Reply(status: int, body: Body) {
    /** The `success` field. */
    predicate Succeeded() {
      body.Answer?
    }
  }

  /** The 400 reply's text, `Falta el parámetro "mensaje", "prompt" o "texto"`.
      It is written as two literals so that `StatusErrorIsNotMissingMessage`
      can read its first character. */
  const MissingMessage := "Falta " + "el par\U{E1}metro \"mensaje\", \"prompt\" o \"texto\""
  const EmptyResponse := "Empty response from NoteGPT"
  const NoTextExtracted := "No text content extracted from NoteGPT"

  /** `f'Error {status}'`: `Error ` followed by the status as `str` writes
      it, so the status can be read back from the message. */
  function StatusError(status: int): (r: string)
    ensures |r| > 6 && r[..6] == "Error "
    ensures r[6] == '-' ==> Decimal.AllDigits(r[7..])
    ensures r[6] != '-' ==> Decimal.AllDigits(r[6..])
    ensures Decimal.ToInt(r[6..]) == status
  {
    var digits := Decimal.FromInt(status);
    var r := "Error " + digits;
    assert r[6..] == digits;
    Decimal.FromIntRoundTrip(status);
    r
  }

  /** The fixed `tone` and `length` of every request. */
  const Tone := "default"
  const Length := "moderate"

  /** The request built once a message is resolved: it carries the resolved
      message and model, the fixed tone and length, and the given id. */
  function Request(args: Args, conversationId: string): (req: ChatRequest)
    requires ResolveMessage(args).Some?
    ensures req.message != []
    ensures ResolveMessage(args) == Some(req.message)
    ensures req.model == ResolveModel(args)
    ensures req.tone == Tone && req.length == Length
    ensures req.conversationId == conversationId
  {
    ChatRequest(ResolveMessage(args).value, ResolveModel(args), Tone, Length, conversationId)
  }

  /** The reply for a sent request, given the upstream's outcome. Success goes
      with status 200 and nothing else does; the answer is the stripped raw
      answer buffer and is never empty; the reasoning is present exactly when
      its stripped buffer is non-empty. A blank body is its own error, and is
      one of the bodies that yield no answer. */
  function Complete(req: ChatRequest, up: Upstream, parse: Parser): (r: Reply)
    ensures r.status == 200 <==> r.Succeeded()
    ensures up.Raised? ==> r == Reply(500, Error(up.error))
    ensures up.Answered? && up.status != 200 ==>
              r.status == up.status && r.body == Error(StatusError(up.status))
    ensures up.Answered? && up.status == 200 && up.content.Failure? ==>
              r == Reply(500, Error(up.content.error))
    ensures up.Answered? && up.status == 200 && up.content.Success? && AllWs(up.content.value) ==>
              r == Reply(500, Error(EmptyResponse))
    ensures up.Answered? && up.status == 200 && up.content.Success? ==>
              (r.Succeeded() <==> Strip(RawAnswer(up.content.value, parse)) != [])
    ensures up.Answered? && up.status == 200 && up.content.Success? && !AllWs(up.content.value) &&
            !r.Succeeded() ==>
              r == Reply(500, Error(NoTextExtracted))
    ensures r.Succeeded() ==>
              && up.Answered? && up.content.Success?
              && r.body.respuesta == Strip(RawAnswer(up.content.value, parse))
              && r.body.modelo == req.model
              && r.body.pregunta == req.message
              && (r.body.razonamiento.Some? <==> Strip(RawReasoning(up.content.value, parse)) != [])
              && (r.body.razonamiento.Some? ==>
                    r.body.razonamiento.value == Strip(RawReasoning(up.content.value, parse)))
  {
    match up
    case Raised(e) => Reply(500, Error(e))
    case Answered(status, content) =>
      if status != 200 then Reply(status, Error(StatusError(status)))
      else match content
        case Failure(e) => Reply(500, Error(e))
        case Success(text) =>
          if Strip(text) == [] then
            WhitespaceBodyDecodesToNothing(text, parse);
            Reply(500, Error(EmptyResponse))
          else
            var raw := Decode(text, parse);
            var answer := Strip(raw.answer);
            if answer == [] then Reply(500, Error(NoTextExtracted))
            else
              var reasoning := Strip(raw.reasoning);
              Reply(200, Answer(answer, req.model, req.message,
                                if reasoning == [] then None else Some(reasoning)))
  }

  /** `chat()`: the upstream is consulted through `exchange` only once a
      message has been resolved. */
  function Handle(args: Args, conversationId: string, exchange: ChatRequest -> Upstream, parse: Parser)
    : (r: Reply)
    ensures ResolveMessage(args).None? <==> r == Reply(400, Error(MissingMessage))
    ensures r.status == 200 <==> r.Succeeded()
    ensures r.Succeeded() ==>
              && ResolveMessage(args) == Some(r.body.pregunta)
              && r.body.modelo == ResolveModel(args)
              && r.body.respuesta != []
  {
    match ResolveMessage(args)
    case None => Reply(400, Error(MissingMessage))
    case Some(_) =>
      var req := Request(args, conversationId);
      StatusErrorIsNotMissingMessage();
      Complete(req, exchange(req), parse)
  }

  /** The upstream-status error text starts with `E`, the missing-message
      text with `F`, so the two replies cannot be confused. */
  lemma StatusErrorIsNotMissingMessage()
    ensures forall status :: StatusError(status) != MissingMessage
  {
    forall status ensures StatusError(status) != MissingMessage {
      assert StatusError(status)[0] == 'E';
      assert MissingMessage[0] == 'F';
    }
  }

  /** Without a message the reply is the 400 error whatever the upstream
      would have done: no request is sent. */
  lemma RejectionSendsNothing(args: Args, conversationId: string,
                              exchange: ChatRequest -> Upstream, other: ChatRequest -> Upstream,
                              parse: Parser, otherParse: Parser)
    requires ResolveMessage(args).None?
    ensures Handle(args, conversationId, exchange, parse) == Reply(400, Error(MissingMessage))
    ensures Handle(args, conversationId, exchange, parse) == Handle(args, conversationId, other, otherParse)
    ensures !Handle(args, conversationId, exchange, parse).Succeeded()
  {
  }

  /** A non-200 upstream status is the reply's status, with `success` false. */
  lemma UpstreamStatusPassedThrough(args: Args, conversationId: string,
                                    exchange: ChatRequest -> Upstream, parse: Parser)
    requires ResolveMessage(args).Some?
    requires exchange(Request(args, conversationId)).Answered?
    requires exchange(Request(args, conversationId)).status != 200
    ensures Handle(args, conversationId, exchange, parse).status ==
            exchange(Request(args, conversationId)).status
    ensures !Handle(args, conversationId, exchange, parse).Succeeded()
  {
  }

  /** A blank 200 body is a 500 error, whatever the decoder would make of it. */
  lemma BlankBodyIsAnError(args: Args, conversationId: string,
                           exchange: ChatRequest -> Upstream, parse: Parser, otherParse: Parser)
    requires ResolveMessage(args).Some?
    requires exchange(Request(args, conversationId)).Answered?
    requires exchange(Request(args, conversationId)).status == 200
    requires exchange(Request(args, conversationId)).content.Success?
    requires AllWs(exchange(Request(args, conversationId)).content.value)
    ensures Handle(args, conversationId, exchange, parse) == Reply(500, Error(EmptyResponse))
    ensures Handle(args, conversationId, exchange, parse) == Handle(args, conversationId, exchange, otherParse)
  {
  }

  /** For a decodable 200 body the request succeeds exactly when the stripped
      raw answer is non-empty, and then echoes the resolved message and model. */
  lemma SuccessExactlyWithAnswer(args: Args, conversationId: string,
                                 exchange: ChatRequest -> Upstream, parse: Parser, text: string)
    requires ResolveMessage(args).Some?
    requires exchange(Request(args, conversationId)) == Answered(200, Success(text))
    ensures Handle(args, conversationId, exchange, parse).Succeeded() <==>
            Strip(RawAnswer(text, parse)) != []
    ensures Handle(args, conversationId, exchange, parse).Succeeded() ==>
            Handle(args, conversationId, exchange, parse).body ==
            Answer(Strip(RawAnswer(text, parse)), ResolveModel(args), ResolveMessage(args).value,
                   if Strip(RawReasoning(text, parse)) == [] then None
                   else Some(Strip(RawReasoning(text, parse))))
  {
  }
}

=== FILE: decimal.dfy ===
/** Python's `str(n)` for an `int`, as used in the `f'Error {status}'`
    message: an optional minus sign followed by canonical decimal digits. */
module Decimal {

  predicate IsDigit(c: char) {
    '0' <= c <= '9'
  }

  predicate AllDigits(s: string) {
    forall i :: 0 <= i < |s| ==> IsDigit(s[i])
  }

  function DigitChar(d: nat): (c: char)
    requires d < 10
    ensures IsDigit(c) && c as int - '0' as int == d
  {
    ('0' as int + d) as char
  }

  /** The number a string of decimal digits denotes, most significant first. */
  function Value(s: string): nat
    requires AllDigits(s)
  {
    if s == [] then 0 else 10 * Value(s[..|s| - 1]) + (s[|s| - 1] as int - '0' as int)
  }

  /** Decimal digits of `n`: non-empty, no leading zero except for 0 itself,
      and denoting `n`. */
  function FromNat(n: nat): (r: string)
    ensures |r| >= 1 && AllDigits(r)
    ensures r[0] != '0' || r == "0"
    ensures Value(r) == n
  {
    if n < 10 then
      [DigitChar(n)]
    else
      var hi := FromNat(n / 10);
      var r := hi + [DigitChar(n % 10)];
      assert r[..|r| - 1] == hi;
      r
  }

  /** `str(n)`: a minus sign exactly for negative `n`, then the digits of
      `|n|`, with no leading zero except in `0` itself. */
  function FromInt(n: int): (r: string)
    ensures |r| >= 1
    ensures n < 0 <==> r[0] == '-'
    ensures n < 0 ==> AllDigits(r[1..]) && Value(r[1..]) == -n
    ensures n >= 0 ==> AllDigits(r) && Value(r) == n
    ensures n >= 0 ==> r[0] != '0' || r == "0"
    ensures n < 0 ==> |r| >= 2 && r[1] != '0'
  {
    if n < 0 then
      var r := "-" + FromNat(-n);
      assert r[1..] == FromNat(-n);
      r
    else FromNat(n)
  }

  /** Reads back what `FromInt` writes. */
  function ToInt(s: string): int
    requires |s| >= 1
    requires s[0] == '-' ==> AllDigits(s[1..])
    requires s[0] != '-' ==> AllDigits(s)
  {
    if s[0] == '-' then -(Value(s[1..]) as int) else Value(s)
  }

  /** Different statuses give different messages: `FromInt` loses nothing. */
  lemma FromIntRoundTrip(n: int)
    ensures ToInt(FromInt(n)) == n
  {
  }
}

=== FILE: query.dfy ===
/** Resolution of the `/api/chat` query parameters: the model name with its
    default and the message taken from the first non-empty of three aliases. */
module Query {
  import opened Wrappers

  /** The query string as Flask sees it: (key, value) pairs in order; a key
      may repeat. */
  type Args = seq<(string, string)>

  const DefaultModel := "gpt-4.1-mini"

  /** Aliases of the message parameter, highest priority first. */
  const MessageKeys: seq<string> := ["mensaje", "prompt", "texto"]

  /** `request.args.get(key)`: the value of the first pair with that key. */
  function Lookup(args: Args, key: string): (r: Option<string>)
    ensures r.None? <==> forall i :: 0 <= i < |args| ==> args[i].0 != key
    ensures r.Some? ==> exists i :: 0 <= i < |args| && args[i] == (key, r.value) &&
                          forall j :: 0 <= j < i ==> args[j].0 != key
  {
    if |args| == 0 then None
    else if args[0].0 == key then
      assert args[0] == (key, args[0].1);
      Some(args[0].1)
    else
      var r := Lookup(args[1..], key);
      assert r.Some? ==> exists i :: 0 <= i < |args[1..]| && args[1..][i] == (key, r.value) &&
                          forall j :: 0 <= j < i ==> args[1..][j].0 != key;
      assert forall i :: 0 <= i < |args[1..]| ==> args[1..][i] == args[i + 1];
      r
  }

  /** `key` is present with a non-empty value, i.e. truthy in Python. */
  predicate Given(args: Args, key: string) {
    var v := Lookup(args, key);
    v.Some? && v.value != ""
  }

  /** The value of the first key in `keys` that is given: Python's
      `args.get(k1) or args.get(k2) or ...`, with every falsy outcome read as
      no message. */
  function FirstGiven(args: Args, keys: seq<string>): (r: Option<string>)
    ensures r.None? <==> forall k :: 0 <= k < |keys| ==> !Given(args, keys[k])
    ensures r.Some? ==> exists k :: 0 <= k < |keys| && Given(args, keys[k]) &&
                          r == Lookup(args, keys[k]) &&
                          forall j :: 0 <= j < k ==> !Given(args, keys[j])
  {
    if keys == [] then None
    else if Given(args, keys[0]) then Lookup(args, keys[0])
    else
      var r := FirstGiven(args, keys[1..]);
      assert forall k :: 0 <= k < |keys[1..]| ==> keys[1..][k] == keys[k + 1];
      r
  }

  /** The model: the first `modelo` value when the key is present at all, even
      when that value is empty; the default only when the key is absent. */
  function ResolveModel(args: Args): (m: string)
    ensures (forall i :: 0 <= i < |args| ==> args[i].0 != "modelo") ==> m == DefaultModel
    ensures (exists i :: 0 <= i < |args| && args[i].0 == "modelo") ==>
              exists i :: 0 <= i < |args| && args[i] == ("modelo", m) &&
                forall j :: 0 <= j < i ==> args[j].0 != "modelo"
  {
    Lookup(args, "modelo").GetOr(DefaultModel)
  }

  /** The message: `mensaje` if given, else `prompt` if given, else `texto`
      if given; nothing (and so a rejected request) when none is. */
  function ResolveMessage(args: Args): (r: Option<string>)
    ensures r.Some? ==> r.value != ""
    ensures Given(args, "mensaje") ==> r == Lookup(args, "mensaje")
    ensures !Given(args, "mensaje") && Given(args, "prompt") ==> r == Lookup(args, "prompt")
    ensures !Given(args, "mensaje") && !Given(args, "prompt") && Given(args, "texto") ==>
              r == Lookup(args, "texto")
    ensures r.None? <==> !Given(args, "mensaje") && !Given(args, "prompt") && !Given(args, "texto")
  {
    var r := FirstGiven(args, MessageKeys);
    assert MessageKeys[0] == "mensaje" && MessageKeys[1] == "prompt" && MessageKeys[2] == "texto";
    r
  }
}

=== FILE: scenarios.dfy ===
/** Worked scenarios for the decoder, with the JSON parser fixed only on the
    payloads that occur: two `data:` lines whose texts join and whose one
    reasoning field survives, and a malformed line that does not stop the
    line after it. */
module Scenarios {
  import opened Wrappers
  import opened Text
  import opened Stream

  /** The line `data: ` + `p`, for a payload `p` without whitespace at its
      ends and with no marker in ` ` + `p`, hands `p` to the parser. */
  lemma DataLinePayload(p: string)
    requires p != [] && !IsWs(p[0]) && !IsWs(p[|p| - 1])
    requires !Contains([' '] + p, Marker)
    ensures PayloadOf(Marker + " " + p) == p
  {
    PayloadAfterMarker([' '] + p);
    SpaceAfterMarker(p);
    StripAfterSpace(p);
  }

  /** `data: ` + `p` is the marker followed by ` ` + `p`. */
  lemma SpaceAfterMarker(p: string)
    ensures Marker + " " + p == Marker + ([' '] + p)
  {
  }

  /** Such a line yields the event of parsing its payload. */
  lemma DataLineEvent(p: string, parse: Parser)
    requires p != [] && !IsWs(p[0]) && !IsWs(p[|p| - 1])
    requires !Contains([' '] + p, Marker)
    ensures Interpret(Marker + " " + p, parse) == Parsing(p, parse)
  {
    var line := Marker + " " + p;
    DataLinePayload(p);
    assert line[..|Marker|] == Marker;
  }

  /** Such a line, alone, decodes to one step of the loop on that event. */
  lemma DataLine(p: string, parse: Parser)
    requires p != [] && !IsWs(p[0]) && !IsWs(p[|p| - 1]) && '\n' !in p
    requires !Contains([' '] + p, Marker)
    ensures Decode(Marker + " " + p, parse) == Step(Nothing, Parsing(p, parse))
  {
    var line := Marker + " " + p;
    DataLineEvent(p, parse);
    assert '\n' !in line;
    SingleLineDecode(line, parse);
  }

  /** A payload that is trimmed, on one line, and has no marker after the
      space that follows `data:`. */
  predicate PlainPayload(p: string) {
    && p != [] && !IsWs(p[0]) && !IsWs(p[|p| - 1]) && '\n' !in p
    && !Contains([' '] + p, Marker)
  }

  /** A data line with such a payload that parses to a text-only object adds
      that text to the answer and nothing to the reasoning. */
  lemma TextOnlyLine(p: string, text: string, parse: Parser)
    requires PlainPayload(p)
    requires parse(p) == Some(Object(Str(text), Absent))
    ensures Decode(Marker + " " + p, parse) == Buffers(text, "")
  {
    DataLine(p, parse);
  }

  /** A trimmed one-line payload without any `d` has no marker in it. */
  lemma PayloadWithoutD(p: string)
    requires p != [] && !IsWs(p[0]) && !IsWs(p[|p| - 1]) && '\n' !in p && 'd' !in p
    ensures PlainPayload(p)
  {
    NoMarkerWithoutD([' '] + p);
  }

  /** The second payload holds one `d`, in `world`, with no marker around it. */
  lemma WorldPayloadHasNoMarker(p: string)
    requires p == "{\"text\":\" world\",\"reasoning\":\"r1\"}"
    ensures !Contains([' '] + p, Marker)
  {
    var x, y := " {\"text\":\" worl", "\",\"reasoning\":\"r1\"}";
    WorldPieces(p, x, y);
    WorldPiecesFreeOfD(x, y);
    NoMarkerAroundOneD(x, y);
  }

  /** ` ` + the second payload is `x`, the `d` of `world`, then `y`. */
  lemma WorldPieces(p: string, x: string, y: string)
    requires p == "{\"text\":\" world\",\"reasoning\":\"r1\"}"
    requires x == " {\"text\":\" worl" && y == "\",\"reasoning\":\"r1\"}"
    ensures x + "d" + y == [' '] + p
  {
  }

  /** Neither `x` nor `y` holds a `d`, and `y` does not start with `a`. */
  lemma WorldPiecesFreeOfD(x: string, y: string)
    requires x == " {\"text\":\" worl" && y == "\",\"reasoning\":\"r1\"}"
    ensures 'd' !in x && 'd' !in y && y != [] && y[0] != 'a'
  {
  }

  /** `data: {"text":" world","reasoning":"r1"}` alone gives the answer
      ` world` and the reasoning `r1`. */
  lemma WorldLine(p: string, parse: Parser)
    requires p == "{\"text\":\" world\",\"reasoning\":\"r1\"}"
    requires parse(p) == Some(Object(Str(" world"), Str("r1")))
    ensures Decode(Marker + " " + p, parse) == Buffers(" world", "r1")
  {
    WorldPayloadHasNoMarker(p);
    DataLine(p, parse);
  }

  /** `Hello` and ` world` join to `Hello world`. */
  lemma JoinedText(a: string, b: string, ab: string)
    requires a == "Hello" && b == " world" && ab == "Hello world"
    ensures a + b == ab
  {
  }

  /** `data: {"text":"Hello"}` then `data: {"text":" world","reasoning":"r1"}`
      decode to the answer `Hello world` and the reasoning `r1`. */
  lemma TwoLinesJoin(p1: string, p2: string, parse: Parser)
    requires p1 == "{\"text\":\"Hello\"}"
    requires p2 == "{\"text\":\" world\",\"reasoning\":\"r1\"}"
    requires parse(p1) == Some(Object(Str("Hello"), Absent))
    requires parse(p2) == Some(Object(Str(" world"), Str("r1")))
    ensures Decode((Marker + " " + p1) + "\n" + (Marker + " " + p2), parse) == Buffers("Hello world", "r1")
  {
    var l1, l2 := Marker + " " + p1, Marker + " " + p2;
    PayloadWithoutD(p1);
    TextOnlyLine(p1, "Hello", parse);
    WorldLine(p2, parse);
    DecodeSplits(l1, l2, parse);
    JoinedText("Hello", " world", "Hello world");
  }

  /** The malformed payload holds one `d`, in `bad`, with no marker around it. */
  lemma BadPayloadHasNoMarker(p: string)
    requires p == "{bad json"
    ensures !Contains([' '] + p, Marker)
  {
    var x, y := " {ba", " json";
    NoMarkerAroundOneD(x, y);
    assert x + "d" + y == [' '] + p;
  }

  /** `data: {bad json`, which the parser rejects, alone gives nothing. */
  lemma BadJsonLine(p: string, parse: Parser)
    requires p == "{bad json"
    requires parse(p) == None
    ensures Decode(Marker + " " + p, parse) == Nothing
  {
    BadPayloadHasNoMarker(p);
    DataLine(p, parse);
  }

  /** `data: {"text":"ok"}` alone gives the answer `ok`. */
  lemma OkLine(p: string, parse: Parser)
    requires p == "{\"text\":\"ok\"}"
    requires parse(p) == Some(Object(Str("ok"), Absent))
    ensures Decode(Marker + " " + p, parse) == Buffers("ok", "")
  {
    PayloadWithoutD(p);
    TextOnlyLine(p, "ok", parse);
  }

  /** `data: {bad json` then `data: {"text":"ok"}` decode to the answer `ok`:
      the parse failure on the first line is swallowed. */
  lemma MalformedLineSkipped(p1: string, p2: string, parse: Parser)
    requires p1 == "{bad json"
    requires p2 == "{\"text\":\"ok\"}"
    requires parse(p1) == None
    requires parse(p2) == Some(Object(Str("ok"), Absent))
    ensures Decode((Marker + " " + p1) + "\n" + (Marker + " " + p2), parse) == Buffers("ok", "")
  {
    var l1, l2 := Marker + " " + p1, Marker + " " + p2;
    BadJsonLine(p1, parse);
    OkLine(p2, parse);
    DecodeSplits(l1, l2, parse);
  }
}

=== FILE: stream.dfy ===
/** The decoder of the upstream's event-stream body inside `chat()`: the body
    is split into lines, every line starting with `data:` has the marker
    removed and is stripped, the rest goes to the JSON parser, and non-empty
    string `text` and `reasoning` fields are appended to two buffers. Any
    exception while handling a line ends that line only. */
module Stream {
  import opened Wrappers
  import opened Text

  const Marker := "data:"

  /** A field of the parsed payload as `data.get(name)` sees it. `Absent`
      stands for every falsy value (missing key, null, false, 0, empty list
      or object); `Str` for a JSON string, possibly empty; `OtherTruthy` for a
      truthy non-string, which makes `buffer += data[name]` raise. */
  datatype Field = Absent | Str(s: string) | OtherTruthy

  /** What `json.loads` returns: a JSON object, seen through its two fields,
      or any other JSON value, on which `.get` raises. */
  datatype Payload = NonObject | Object(text: Field, reasoning: Field)

  /** `json.loads`, left abstract: `None` when it raises. */
  type Parser = string -> Option<Payload>

  /** The two accumulators `respuesta_completa` and `razonamiento`. */
  datatype Buffers = Buffers(answer: string, reasoning: string)

  const Nothing := Buffers("", "")

  /** The string a `data:` line hands to the parser: every occurrence of the
      marker removed, then stripped. It never starts or ends with whitespace. */
  function PayloadOf(line: string): (r: string)
    ensures r == [] || (!IsWs(r[0]) && !IsWs(r[|r| - 1]))
    ensures |r| <= |line|
  {
    Strip(RemoveAll(line, Marker))
  }

  /** `if data.get(name): acc += data[name]`: `None` when it raises. */
  function AppendField(acc: string, f: Field): (r: Option<string>)
    ensures r.None? <==> f.OtherTruthy?
    ensures r.Some? ==> acc <= r.value
    ensures f.Absent? ==> r == Some(acc)
    ensures f.Str? ==> r == Some(acc + f.s)
  {
    match f
    case Absent => Some(acc)
    case Str(s) => Some(acc + s)
    case OtherTruthy => None
  }

  /** What the `try` block of one line gets to: `Skipped` when the line does
      not start with the marker, its payload is empty, or `json.loads`
      raises; otherwise the parsed value. */
  datatype Event = Skipped | Parsed(payload: Payload)

  /** What `json.loads` makes of a non-empty payload, as an event. */
  function Parsing(p: string, parse: Parser): Event {
    match parse(p)
    case None => Skipped
    case Some(v) => Parsed(v)
  }

  function Interpret(line: string, parse: Parser): (e: Event)
    ensures !StartsWith(line, Marker) ==> e == Skipped
    ensures e.Parsed? <==> StartsWith(line, Marker) && PayloadOf(line) != [] && parse(PayloadOf(line)).Some?
    ensures e.Parsed? ==> parse(PayloadOf(line)) == Some(e.payload)
  {
    if !StartsWith(line, Marker) then Skipped
    else
      var payload := PayloadOf(line);
      if payload == [] then Skipped
      else Parsing(payload, parse)
  }

  /** The answer text an event contributes: the `text` field of an object
      when it is a string. */
  function TextPart(e: Event): string {
    match e
    case Parsed(Object(Str(t), _)) => t
    case _ => ""
  }

  /** The reasoning text an event contributes: the `reasoning` field of an
      object when it is a string and appending `text` did not raise first. */
  function ReasoningPart(e: Event): string {
    match e
    case Parsed(Object(t, Str(x))) => if t.OtherTruthy? then "" else x
    case _ => ""
  }

  /** The rest of one iteration of the loop: the buffers as they stand when
      the line's `try` block ends, normally or by an exception. Updates made
      before an exception are kept. The effect is to append the event's
      `TextPart` and `ReasoningPart`. */
  function Step(buf: Buffers, e: Event): (r: Buffers)
    ensures r.answer == buf.answer + TextPart(e)
    ensures r.reasoning == buf.reasoning + ReasoningPart(e)
  {
    match e
    case Skipped => buf
    case Parsed(NonObject) => buf
    case Parsed(Object(text, reasoning)) =>
      match AppendField(buf.answer, text)
      case None => buf
      case Some(answer) =>
        match AppendField(buf.reasoning, reasoning)
        case None => buf.(answer := answer)
        case Some(reasoning') => Buffers(answer, reasoning')
  }

  /** The events of the lines, in order. */
  function Events(lines: seq<string>, parse: Parser): (r: seq<Event>)
    ensures |r| == |lines|
  {
    if lines == [] then [] else [Interpret(lines[0], parse)] + Events(lines[1..], parse)
  }

  /** The `for line in ...` loop over the remaining events. */
  function Fold(buf: Buffers, events: seq<Event>): Buffers
    decreases |events|
  {
    if events == [] then buf else Fold(Step(buf, events[0]), events[1..])
  }

  /** Answer text of each event, in order. */
  function TextParts(events: seq<Event>): (r: seq<string>)
    ensures |r| == |events|
  {
    if events == [] then [] else [TextPart(events[0])] + TextParts(events[1..])
  }

  /** Reasoning text of each event, in order. */
  function ReasoningParts(events: seq<Event>): (r: seq<string>)
    ensures |r| == |events|
  {
    if events == [] then [] else [ReasoningPart(events[0])] + ReasoningParts(events[1..])
  }

  /** Running the loop appends the in-order concatenation of every event's
      contribution to the buffers it started from. */
  lemma {:induction false} FoldAppends(buf: Buffers, events: seq<Event>)
    ensures Fold(buf, events) ==
            Buffers(buf.answer + Concat(TextParts(events)),
                    buf.reasoning + Concat(ReasoningParts(events)))
    decreases |events|
  {
    if events != [] {
      FoldAppends(Step(buf, events[0]), events[1..]);
    }
  }

  /** The in-order concatenation of the string `text` fields of the lines
      of `body`: what the answer buffer should hold. */
  ghost function RawAnswer(body: string, parse: Parser): string {
    Concat(TextParts(Events(Split(body, '\n'), parse)))
  }

  /** The in-order concatenation of the string `reasoning` fields that
      reach the buffer: what the reasoning buffer should hold. */
  ghost function RawReasoning(body: string, parse: Parser): string {
    Concat(ReasoningParts(Events(Split(body, '\n'), parse)))
  }

  /** The raw buffers after the loop over `body.split('\n')`: the answer
      buffer is the concatenation of the lines' string `text` fields, the
      reasoning buffer that of their string `reasoning` fields. */
  function Decode(body: string, parse: Parser): (r: Buffers)
    ensures r.answer == RawAnswer(body, parse)
    ensures r.reasoning == RawReasoning(body, parse)
  {
    FoldAppends(Nothing, Events(Split(body, '\n'), parse));
    Fold(Nothing, Events(Split(body, '\n'), parse))
  }

  lemma {:induction false} EventsAppend(xs: seq<string>, ys: seq<string>, parse: Parser)
    ensures Events(xs + ys, parse) == Events(xs, parse) + Events(ys, parse)
  {
    if xs == [] {
      assert xs + ys == ys;
    } else {
      assert (xs + ys)[1..] == xs[1..] + ys;
      EventsAppend(xs[1..], ys, parse);
    }
  }

  lemma {:induction false} PartsAppend(xs: seq<Event>, ys: seq<Event>)
    ensures TextParts(xs + ys) == TextParts(xs) + TextParts(ys)
    ensures ReasoningParts(xs + ys) == ReasoningParts(xs) + ReasoningParts(ys)
  {
    if xs == [] {
      assert xs + ys == ys;
    } else {
      assert (xs + ys)[1..] == xs[1..] + ys;
      PartsAppend(xs[1..], ys);
    }
  }

  /** Decoding `a + "\n" + b` gives the buffers of `a` followed by those of `b`. */
  lemma DecodeSplits(a: string, b: string, parse: Parser)
    ensures Decode(a + "\n" + b, parse) ==
            Buffers(Decode(a, parse).answer + Decode(b, parse).answer,
                    Decode(a, parse).reasoning + Decode(b, parse).reasoning)
  {
    var ea, eb := Events(Split(a, '\n'), parse), Events(Split(b, '\n'), parse);
    SplitAppend(a, '\n', b);
    EventsAppend(Split(a, '\n'), Split(b, '\n'), parse);
    PartsAppend(ea, eb);
    ConcatAppend(TextParts(ea), TextParts(eb));
    ConcatAppend(ReasoningParts(ea), ReasoningParts(eb));
  }

  /** A line that contributes nothing: `TextPart` and `ReasoningPart` of its
      event are both empty. */
  predicate Silent(line: string, parse: Parser) {
    var e := Interpret(line, parse);
    TextPart(e) == "" && ReasoningPart(e) == ""
  }

  /** A single silent line decodes to empty buffers. */
  lemma SilentLineDecodesToNothing(line: string, parse: Parser)
    requires '\n' !in line
    requires Silent(line, parse)
    ensures Decode(line, parse) == Nothing
  {
    SplitSingle(line, '\n');
    var es := Events([line], parse);
    assert es == [Interpret(line, parse)];
    assert TextParts(es) == [""];
    assert ReasoningParts(es) == [""];
    assert Concat([""]) == "";
  }

  /** A silent first line is as good as absent. */
  lemma SilentFirstLine(line: string, b: string, parse: Parser)
    requires '\n' !in line
    requires Silent(line, parse)
    ensures Decode(line + "\n" + b, parse) == Decode(b, parse)
  {
    SilentLineDecodesToNothing(line, parse);
    DecodeSplits(line, b, parse);
  }

  /** A silent last line is as good as absent. */
  lemma SilentLastLine(a: string, line: string, parse: Parser)
    requires '\n' !in line
    requires Silent(line, parse)
    ensures Decode(a + "\n" + line, parse) == Decode(a, parse)
  {
    SilentLineDecodesToNothing(line, parse);
    DecodeSplits(a, line, parse);
  }

  lemma SameAfter(a: string, x: string, y: string, parse: Parser)
    requires Decode(x, parse) == Decode(y, parse)
    ensures Decode(a + "\n" + x, parse) == Decode(a + "\n" + y, parse)
  {
    DecodeSplits(a, x, parse);
    DecodeSplits(a, y, parse);
  }

  /** Inserting a silent line between two lines of a body leaves the decoded
      buffers unchanged. */
  lemma SilentLineIsTransparent(a: string, line: string, b: string, parse: Parser)
    requires '\n' !in line
    requires Silent(line, parse)
    ensures Decode(a + "\n" + line + "\n" + b, parse) == Decode(a + "\n" + b, parse)
  {
    var rest := line + "\n" + b;
    SilentFirstLine(line, b, parse);
    SameAfter(a, rest, b, parse);
    Regroup(a, line, b);
  }

  /** The lines `a`, `line`, `b` are `a` followed by the body `line`, `b`. */
  lemma Regroup(a: string, line: string, b: string)
    ensures a + "\n" + line + "\n" + b == a + "\n" + (line + "\n" + b)
  {
  }

  /** A line that does not start with `data:` is ignored wherever it stands. */
  lemma NonDataLineIgnored(a: string, line: string, b: string, parse: Parser)
    requires '\n' !in line
    requires !StartsWith(line, Marker)
    ensures Decode(line, parse) == Nothing
    ensures Decode(line + "\n" + b, parse) == Decode(b, parse)
    ensures Decode(a + "\n" + line + "\n" + b, parse) == Decode(a + "\n" + b, parse)
    ensures Decode(a + "\n" + line, parse) == Decode(a, parse)
  {
    assert Silent(line, parse);
    SilentFirstLine(line, b, parse);
    SilentLineIsTransparent(a, line, b, parse);
    SilentLastLine(a, line, parse);
    SilentLineDecodesToNothing(line, parse);
  }

  /** A `data:` line whose payload is empty, fails to parse, or is not a JSON
      object contributes nothing, and the lines after it are decoded as if it
      were not there. */
  lemma FailedLineIgnored(a: string, line: string, b: string, parse: Parser)
    requires '\n' !in line
    requires PayloadOf(line) == [] || parse(PayloadOf(line)) == None ||
             parse(PayloadOf(line)) == Some(NonObject)
    ensures Decode(line, parse) == Nothing
    ensures Decode(line + "\n" + b, parse) == Decode(b, parse)
    ensures Decode(a + "\n" + line + "\n" + b, parse) == Decode(a + "\n" + b, parse)
    ensures Decode(a + "\n" + line, parse) == Decode(a, parse)
  {
    assert Silent(line, parse);
    SilentFirstLine(line, b, parse);
    SilentLineIsTransparent(a, line, b, parse);
    SilentLastLine(a, line, parse);
    SilentLineDecodesToNothing(line, parse);
  }

  /** When appending `text` succeeds and appending `reasoning` then raises,
      the text stays in the answer buffer. */
  lemma TextKeptWhenReasoningRaises(buf: Buffers, line: string, parse: Parser, t: string)
    requires StartsWith(line, Marker) && PayloadOf(line) != []
    requires parse(PayloadOf(line)) == Some(Object(Str(t), OtherTruthy))
    ensures Step(buf, Interpret(line, parse)) == Buffers(buf.answer + t, buf.reasoning)
  {
  }

  lemma {:induction false} SplitOfWhitespace(s: string)
    requires AllWs(s)
    ensures forall i :: 0 <= i < |Split(s, '\n')| ==> AllWs(Split(s, '\n')[i])
  {
    if s != [] {
      var rest := Split(s[1..], '\n');
      SplitOfWhitespace(s[1..]);
      if s[0] != '\n' {
        var head := [s[0]] + rest[0];
        assert AllWs(head);
      }
    }
  }

  lemma {:induction false} ConcatOfEmpties(ss: seq<string>)
    requires forall i :: 0 <= i < |ss| ==> ss[i] == ""
    ensures Concat(ss) == ""
  {
    if ss != [] {
      ConcatOfEmpties(ss[1..]);
    }
  }

  /** Lines that do not start with the marker contribute no text. */
  lemma {:induction false} NonDataLinesAreSilent(lines: seq<string>, parse: Parser)
    requires forall i :: 0 <= i < |lines| ==> !StartsWith(lines[i], Marker)
    ensures forall i :: 0 <= i < |lines| ==> TextParts(Events(lines, parse))[i] == ""
    ensures forall i :: 0 <= i < |lines| ==> ReasoningParts(Events(lines, parse))[i] == ""
  {
    if lines != [] {
      NonDataLinesAreSilent(lines[1..], parse);
    }
  }

  /** An empty or all-whitespace body decodes to empty buffers: none of its
      lines can start with the marker. */
  lemma WhitespaceBodyDecodesToNothing(body: string, parse: Parser)
    requires AllWs(body)
    ensures Decode(body, parse) == Nothing
  {
    var lines := Split(body, '\n');
    SplitOfWhitespace(body);
    forall i | 0 <= i < |lines|
      ensures !StartsWith(lines[i], Marker)
    {
      if |lines[i]| >= |Marker| {
        assert lines[i][..|Marker|][0] == lines[i][0];
        assert IsWs(lines[i][0]);
      }
    }
    NonDataLinesAreSilent(lines, parse);
    ConcatOfEmpties(TextParts(Events(lines, parse)));
    ConcatOfEmpties(ReasoningParts(Events(lines, parse)));
  }

  /** A mismatch at one position rules out an occurrence there. */
  lemma MismatchAt(s: string, p: string, i: int, k: int)
    requires 0 <= i && 0 <= k < |p| && i + k < |s| && s[i + k] != p[k]
    ensures !OccursAt(s, p, i)
  {
    if i + |p| <= |s| {
      assert s[i..i + |p|][k] == s[i + k];
    }
  }

  /** An occurrence of the marker starts with a `d`. */
  lemma MarkerStartsWithD(s: string, i: int)
    requires 0 <= i < |s| && s[i] != 'd'
    ensures !OccursAt(s, Marker, i)
  {
    MismatchAt(s, Marker, i, 0);
  }

  /** A string without a `d` holds no marker. */
  lemma NoMarkerWithoutD(s: string)
    requires 'd' !in s
    ensures !Contains(s, Marker)
  {
    forall i | 0 <= i <= |s| ensures !OccursAt(s, Marker, i) {
      if i < |s| { MarkerStartsWithD(s, i); }
    }
  }

  /** One `d` not followed by `a`, between stretches free of `d`, forms no
      marker. */
  lemma NoMarkerAroundOneD(x: string, y: string)
    requires 'd' !in x && 'd' !in y && y != [] && y[0] != 'a'
    ensures !Contains(x + "d" + y, Marker)
  {
    var s := x + "d" + y;
    forall i | 0 <= i <= |s| ensures !OccursAt(s, Marker, i) {
      if i < |x| {
        assert s[i] == x[i];
        MarkerStartsWithD(s, i);
      } else if i == |x| {
        if i + 1 < |s| {
          assert s[i + 1] == y[0];
          MismatchAt(s, Marker, i, 1);
        }
      } else if i < |s| {
        assert s[i] == y[i - |x| - 1];
        MarkerStartsWithD(s, i);
      }
    }
  }

  /** A body of one line decodes to what one step of the loop makes of it. */
  lemma SingleLineDecode(line: string, parse: Parser)
    requires '\n' !in line
    ensures Decode(line, parse) == Step(Nothing, Interpret(line, parse))
  {
    SplitSingle(line, '\n');
    var es := Events([line], parse);
    assert es == [Interpret(line, parse)];
    assert Concat([TextPart(es[0])]) == TextPart(es[0]);
    assert Concat([ReasoningPart(es[0])]) == ReasoningPart(es[0]);
  }

  /** For a line made of the marker and a rest free of it, the parser gets the
      stripped rest. */
  lemma PayloadAfterMarker(rest: string)
    requires !Contains(rest, Marker)
    ensures PayloadOf(Marker + rest) == Strip(rest)
  {
    RemoveAllFirst([], Marker, rest);
    assert [] + Marker + rest == Marker + rest;
    RemoveAllAbsent(rest, Marker);
  }

  /** No occurrence of the marker starts inside a stretch free of `d`. */
  lemma NoMarkerStartsIn(a: string, rest: string)
    requires 'd' !in a
    ensures forall i :: 0 <= i < |a| ==> !OccursAt(a + rest, Marker, i)
  {
    forall i | 0 <= i < |a| ensures !OccursAt(a + rest, Marker, i) {
      assert (a + rest)[i] == a[i];
      MarkerStartsWithD(a + rest, i);
    }
  }

  /** A marker between a stretch free of `d` and one free of `d` is cut out. */
  lemma InnerCut(a: string, b: string)
    requires 'd' !in a && 'd' !in b
    ensures RemoveAll(a + Marker + b, Marker) == a + b
  {
    NoMarkerWithoutD(b);
    RemoveAllAbsent(b, Marker);
    NoMarkerStartsIn(a, Marker + b);
    assert a + (Marker + b) == a + Marker + b;
    RemoveAllFirst(a, Marker, b);
  }

  /** Between two stretches free of `d`, both markers of
      `Marker + a + Marker + b` are cut out. */
  lemma TwoMarkersCut(a: string, b: string)
    requires 'd' !in a && 'd' !in b
    ensures RemoveAll(Marker + a + Marker + b, Marker) == a + b
  {
    var s := a + Marker + b;
    InnerCut(a, b);
    RemoveAllFirst([], Marker, s);
    assert [] + Marker + s == Marker + a + Marker + b;
  }

  /** The marker is removed from inside the payload too: a `text` value
      mentioning `metadata:` (here `a + Marker + b`) reaches the parser with
      `data:` cut out of it. */
  lemma MarkerInsideTextIsCut(line: string, a: string, b: string)
    requires a == "{\"text\":\"meta" && b == "1\"}"
    requires line == Marker + a + Marker + b
    ensures PayloadOf(line) == a + b
  {
    TwoMarkersCut(a, b);
    StripKeepsTrimmed(a + b);
  }

  /** `da` + `data:` + `ta:x` loses only its inner marker, leaving the
      marker `data:` re-formed around the cut. */
  lemma ReformingRemoval(t: string)
    requires t == "ta:x"
    ensures RemoveAll(Marker + (['d'] + (['a'] + (Marker + t))), Marker) == Marker[..2] + t
  {
    var u := Marker + t;
    var v := ['a'] + u;
    var w := ['d'] + v;
    NoMarkerWithoutD(t);
    RemoveAllAbsent(t, Marker);
    RemoveAllAtStart(Marker, t);
    MarkerStartsWithD(v, 0);
    RemoveAllKeepsHead(v, Marker);
    assert v[1..] == u;
    MismatchAt(w, Marker, 0, 2);
    RemoveAllKeepsHead(w, Marker);
    assert w[1..] == v;
    RemoveAllAtStart(Marker, w);
  }

  /** A single pass of removal can re-form the marker, so the parser's input
      may still contain `data:`. */
  lemma MarkerCanReform(line: string)
    requires line == "data:dadata:ta:x"
    ensures PayloadOf(line) == "data:x"
    ensures Contains(PayloadOf(line), Marker)
  {
    var t := "ta:x";
    ReformingLine(line, t);
    ReformingRemoval(t);
    ReformedPayload(t, "data:x");
  }

  /** `data:dadata:ta:x` is the marker, `da`, the marker again, then `ta:x`. */
  lemma ReformingLine(line: string, t: string)
    requires line == "data:dadata:ta:x" && t == "ta:x"
    ensures line == Marker + (['d'] + (['a'] + (Marker + t)))
  {
  }

  /** `da` + `ta:x` is `data:x`, already stripped, and starts with the marker. */
  lemma ReformedPayload(t: string, r: string)
    requires t == "ta:x" && r == "data:x"
    ensures Strip(Marker[..2] + t) == r
    ensures OccursAt(r, Marker, 0)
  {
    assert Marker[..2] + t == r;
    StripKeepsTrimmed(r);
  }
}

=== FILE: text.dfy ===
/** The handful of Python `str` operations the request handler relies on:
    `isspace`/`strip`, `startswith`, `replace(old, '')` and `split(sep)`,
    together with the concatenation of a list of strings. */
module Text {

  /** Python's `str.isspace()` for one character: the code points whose
      bidirectional class is WS, B or S, or whose category is Zs. */
  predicate IsWs(c: char) {
    || c == ' '
    || ('\t' <= c <= '\r')
    || ('\U{1C}' <= c <= '\U{1F}')
    || c == '\U{85}'
    || c == '\U{A0}'
    || c == '\U{1680}'
    || ('\U{2000}' <= c <= '\U{200A}')
    || c == '\U{2028}'
    || c == '\U{2029}'
    || c == '\U{202F}'
    || c == '\U{205F}'
    || c == '\U{3000}'
  }

  predicate AllWs(s: string) {
    forall i :: 0 <= i < |s| ==> IsWs(s[i])
  }

  /** Number of whitespace characters `s` starts with. */
  function LeadingWs(s: string): (n: nat)
    ensures n <= |s|
    ensures forall k :: 0 <= k < n ==> IsWs(s[k])
    ensures n == |s| || !IsWs(s[n])
  {
    if |s| > 0 && IsWs(s[0]) then 1 + LeadingWs(s[1..]) else 0
  }
  /** Index at which the whitespace that `s` ends with begins. */
  function TrailingWsStart(s: string): (n: nat)
    ensures n <= |s|
    ensures forall k :: n <= k < |s| ==> IsWs(s[k])
    ensures n == 0 || !IsWs(s[n - 1])
  {
    if |s| > 0 && IsWs(s[|s| - 1]) then TrailingWsStart(s[..|s| - 1]) else |s|
  }
  /** `s.strip()`: the infix of `s` left after removing whitespace at both
      ends; it is empty exactly when `s` is all whitespace. */
  function Strip(s: string): (r: string)
    ensures exists i :: 0 <= i <= |s| - |r| && r == s[i..i + |r|] && AllWs(s[..i]) && AllWs(s[i + |r|..])
    ensures r == [] || (!IsWs(r[0]) && !IsWs(r[|r| - 1]))
    ensures r == [] <==> AllWs(s)
  {
    var i := LeadingWs(s);
    var j := i + TrailingWsStart(s[i..]);
    assert AllWs(s[..i]);
    assert AllWs(s[j..]);
    assert AllWs(s) ==> i == |s|;
    s[i..j]
  }

  /** A string without whitespace at either end is its own strip. */
  lemma StripKeepsTrimmed(s: string)
    requires s != [] && !IsWs(s[0]) && !IsWs(s[|s| - 1])
    ensures Strip(s) == s
  {
    assert LeadingWs(s) == 0;
    assert s[0..] == s;
  }

  /** One space in front of a string without whitespace at either end is
      all that strip removes. */
  lemma StripAfterSpace(s: string)
    requires s != [] && !IsWs(s[0]) && !IsWs(s[|s| - 1])
    ensures Strip([' '] + s) == s
  {
    var t := [' '] + s;
    assert t[1..] == s;
    assert LeadingWs(t) == 1;
    StripKeepsTrimmed(s);
  }

  predicate StartsWith(s: string, prefix: string) {
    |prefix| <= |s| && s[..|prefix|] == prefix
  }

  /** `p` occurs in `s` starting at index `i`. */
  predicate OccursAt(s: string, p: string, i: int) {
    0 <= i && i + |p| <= |s| && s[i..i + |p|] == p
  }

  predicate Contains(s: string, p: string) {
    exists i :: 0 <= i <= |s| && OccursAt(s, p, i)
  }

  /** `s.replace(p, '')` for a non-empty `p`: scanning left to right, every
      occurrence of `p` that does not overlap an earlier removed one is
      deleted, in a single pass. */
  function RemoveAll(s: string, p: string): (r: string)
    requires p != []
    ensures |r| <= |s|
    ensures !StartsWith(s, p) && s != [] ==> r != [] && r[0] == s[0]
    decreases |s|
  {
    if |s| < |p| then s
    else if s[..|p|] == p then RemoveAll(s[|p|..], p)
    else [s[0]] + RemoveAll(s[1..], p)
  }

  /** A string without `p` in it is returned unchanged. */
  lemma {:induction false} RemoveAllAbsent(s: string, p: string)
    requires p != []
    requires !Contains(s, p)
    ensures RemoveAll(s, p) == s
    decreases |s|
  {
    if |s| >= |p| {
      assert !OccursAt(s, p, 0);
      forall i | OccursAt(s[1..], p, i)
        ensures false
      {
        assert s[1..][i..i + |p|] == s[i + 1..i + 1 + |p|];
        assert OccursAt(s, p, i + 1);
      }
      RemoveAllAbsent(s[1..], p);
    }
  }

  /** No occurrence starting in `a` stays true after dropping `a`'s head. */
  lemma NoOccurrenceInTail(a: string, p: string, b: string)
    requires a != []
    requires forall i :: 0 <= i < |a| ==> !OccursAt(a + p + b, p, i)
    ensures forall i :: 0 <= i < |a[1..]| ==> !OccursAt(a[1..] + p + b, p, i)
  {
    var s := a + p + b;
    assert s[1..] == a[1..] + p + b;
    forall i | 0 <= i < |a[1..]|
      ensures !OccursAt(a[1..] + p + b, p, i)
    {
      assert !OccursAt(s, p, i + 1);
      assert s[1..][i..i + |p|] == s[i + 1..i + 1 + |p|];
    }
  }

  /** Removal cuts an occurrence at the very start. */
  lemma RemoveAllAtStart(p: string, b: string)
    requires p != []
    ensures RemoveAll(p + b, p) == RemoveAll(b, p)
  {
    var s := p + b;
    assert s[..|p|] == p;
    assert s[|p|..] == b;
  }

  /** Removal keeps a head that starts no occurrence. */
  lemma RemoveAllKeepsHead(s: string, p: string)
    requires p != [] && s != []
    requires !OccursAt(s, p, 0)
    ensures RemoveAll(s, p) == [s[0]] + RemoveAll(s[1..], p)
  {
    if |s| < |p| {
      assert RemoveAll(s[1..], p) == s[1..];
      assert s == [s[0]] + s[1..];
    }
  }

  /** When the leftmost occurrence of `p` in `a + p + b` is the one right
      after `a`, it is removed and scanning resumes in `b`. */
  lemma {:induction false} RemoveAllFirst(a: string, p: string, b: string)
    requires p != []
    requires forall i :: 0 <= i < |a| ==> !OccursAt(a + p + b, p, i)
    ensures RemoveAll(a + p + b, p) == a + RemoveAll(b, p)
    decreases |a|
  {
    if a == [] {
      assert a + p + b == p + b;
      RemoveAllAtStart(p, b);
    } else {
      var s, t := a + p + b, a[1..] + p + b;
      assert !OccursAt(s, p, 0);
      RemoveAllKeepsHead(s, p);
      assert s[0] == a[0] && s[1..] == t;
      NoOccurrenceInTail(a, p, b);
      RemoveAllFirst(a[1..], p, b);
      HeadRegroup(a, RemoveAll(b, p));
    }
  }

  /** Putting the head of `a` back in front of its tail gives `a`. */
  lemma HeadRegroup(a: string, r: string)
    requires a != []
    ensures [a[0]] + (a[1..] + r) == a + r
  {
    assert a == [a[0]] + a[1..];
  }

  /** Number of occurrences of `c` in `s`. */
  function Count(s: string, c: char): nat {
    if s == [] then 0 else (if s[0] == c then 1 else 0) + Count(s[1..], c)
  }

  /** The inverse of `Split`: the pieces with `sep` between consecutive ones. */
  function Join(pieces: seq<string>, sep: char): string
    requires |pieces| > 0
  {
    if |pieces| == 1 then pieces[0] else pieces[0] + [sep] + Join(pieces[1..], sep)
  }

  /** `s.split(sep)` with an explicit one-character separator: k separators
      give k + 1 pieces, none of which holds the separator, and joining them
      back gives `s`. */
  function Split(s: string, sep: char): (r: seq<string>)
    ensures |r| == Count(s, sep) + 1
    ensures forall i :: 0 <= i < |r| ==> sep !in r[i]
    ensures Join(r, sep) == s
  {
    if s == [] then [""]
    else
      var rest := Split(s[1..], sep);
      if s[0] == sep then
        assert s == [sep] + s[1..];
        [""] + rest
      else
        var r := [[s[0]] + rest[0]] + rest[1..];
        assert forall i :: 1 <= i < |r| ==> r[i] == rest[i];
        assert s == [s[0]] + s[1..];
        r
  }

  /** Splitting at a separator splits the piece lists: the pieces of
      `a + [sep] + b` are those of `a` followed by those of `b`. */
  lemma {:induction false} SplitAppend(a: string, sep: char, b: string)
    ensures Split(a + [sep] + b, sep) == Split(a, sep) + Split(b, sep)
    decreases |a|
  {
    var s := a + [sep] + b;
    if a == [] {
      assert s[1..] == b;
    } else {
      assert s[1..] == a[1..] + [sep] + b;
      SplitAppend(a[1..], sep, b);
    }
  }

  /** A string without the separator is a single piece. */
  lemma {:induction false} SplitSingle(s: string, sep: char)
    requires sep !in s
    ensures Split(s, sep) == [s]
  {
    var r := Split(s, sep);
    CountAbsent(s, sep);
    assert |r| == 1;
  }

  lemma {:induction false} CountAbsent(s: string, c: char)
    requires c !in s
    ensures Count(s, c) == 0
  {
    if s != [] {
      assert c !in s[1..];
      CountAbsent(s[1..], c);
    }
  }

  /** Joining pieces free of the separator and splitting again gives the
      same pieces back: `Split` and `Join` are inverse bijections. */
  lemma {:induction false} SplitJoin(pieces: seq<string>, sep: char)
    requires |pieces| > 0
    requires forall i :: 0 <= i < |pieces| ==> sep !in pieces[i]
    ensures Split(Join(pieces, sep), sep) == pieces
  {
    if |pieces| == 1 {
      SplitSingle(pieces[0], sep);
    } else {
      SplitJoin(pieces[1..], sep);
      SplitSingle(pieces[0], sep);
      SplitAppend(pieces[0], sep, Join(pieces[1..], sep));
      assert pieces == [pieces[0]] + pieces[1..];
    }
  }

  /** `''.join(ss)`. */
  function Concat(ss: seq<string>): string {
    if ss == [] then [] else ss[0] + Concat(ss[1..])
  }

  lemma {:induction false} ConcatAppend(xs: seq<string>, ys: seq<string>)
    ensures Concat(xs + ys) == Concat(xs) + Concat(ys)
  {
    if xs == [] {
      assert xs + ys == ys;
    } else {
      assert (xs + ys)[1..] == xs[1..] + ys;
      ConcatAppend(xs[1..], ys);
    }
  }
}

=== FILE: wrappers.dfy ===
/** An optional value and a value-or-error result (Python's "returns
    something or raises"), used across the model. */
module Wrappers {

  datatype Option<+T> = None | Some(value: T) {

    /** The value when present, otherwise `default` (Python's `dict.get(k, default)`). */
    function GetOr(default: T): T {
      match this
      case Some(v) => v
      case None => default
    }
  }

  datatype Result<+R, +E> = Success(value: R) | Failure(error: E)
}
